=== FILE: README.md ===
# Kanazawa Narukami: a verified model of the game rules

The game is a lightning-betting round game on a 4x4 map of Kanazawa. Each
round, every area (A1 to D4) gets a strike probability from its distance to a
random storm centre plus a random jitter. The probability is clamped to
[0.05, 0.25], and the area's odds are `round(0.9 / p, 1 decimal)`. The player
selects one area, picks a stake and confirms. The stake is deducted at once.
A 300-second clock counts down. When it runs out, a weighted draw picks the
struck area. A hit pays `floor(stake x odds)`. The result is recorded in a
history of at most ten entries, and a new round starts.

The repository holds the rules twice: a DOM version (`game.js`) and a React
version (`src/App.tsx`). This project models each version as an immutable
state with pure transitions, and proves properties of both:

- `optional.dfy`: nullable values and JavaScript truthiness of a nullable string.
- `format.dfy`: odds as whole tenths, with `toFixed(1)` and the `parseFloat` that reads the text back.
- `grid.dfy`: the sixteen areas, their ids and positions, and both constructions.
- `probability.dfy`: the clamp, the odds formula, the per-round refresh, the odds lookup and the payout.
- `strike.dfy`: the weighted strike draw as a cumulative walk over exact reals.
- `oddstable.dfy`: the odds panel, a stable sort by ascending odds.
- `history.dfy`: the ten-entry, newest-first history.
- `engine.dfy`: the events (select, set bet, confirm, clear, clock tick) and the field predicate.
- `jsgame.dfy`: the round engine of `game.js`.
- `reactgame.dfy`: the round engine of `src/App.tsx`.
- `versions.dfy`: where the two engines agree and where they differ.

Randomness is passed in. A clock tick carries the strike draw `r` and one
`Sample(distance, jitter)` per area for the refresh that follows a
settlement. Odds are whole tenths (93 means 9.3). `Math.round(x)` is modelled
as `floor(x + 1/2)` over exact reals. The payout `Math.floor(wager * odds)` is
`(wager * tenths) / 10`. This is floor division, because the divisor is
positive.

The two versions differ, and the model keeps each as written:

- Round numbering: `game.js` starts at round 0 and React starts at round 1.
- The tick test: `game.js` decrements and then settles at `<= 0`. React settles when the previous value is `<= 1`. `Versions.SameCadence` proves that both still settle on the same tick.
- Changing the bet while locked: `game.js` accepts a bet change after confirmation and pays the win on the new amount. React snapshots the stake at confirmation and pays on that (`Versions.StakeAfterBetChange`).
- Clearing while locked: `game.js` lets the player clear a confirmed bet. The stake is then lost, and the round records nothing. React ignores the clear (`Versions.ClearAfterConfirm`).

Further behaviour of the code that the model keeps as written:

- `clearSelection` in `game.js` has no check of the active flag, so a confirmed selection can be cleared.
- Both versions record the gross win in history: a bet of 100 at odds 9.0 records `+900`, not the net `+800` (`Versions.WorkedExample`).
- Both versions settle any selection, confirmed or not. An unconfirmed hit therefore credits the win although nothing was deducted (`Versions.UnconfirmedSelectionIsSettled`).
- Odds are rounded with `Math.round`, which rounds half up, and so does the model.
- The DOM version's areas start without odds, and its constructor renders the odds badges before the first odds are computed; see "Findings". The React version's areas always carry odds.

## Model

| member | source | states |
|---|---|---|
| Format.FormatTenths | game.js:225 | `toFixed(1)` of whole tenths is a run of digits, a point, and exactly one digit |
| Format.FormatParse | game.js:282 | Odds text in the canonical `<digits>.<digit>` shape (no leading zero before a multi-digit integer part) is read as the tenths whose `toFixed(1)` rendering is that very text |
| Format.TenthsRoundTrip | game.js:282 | Reading an odds text back with `parseFloat` gives exactly the odds `toFixed(1)` wrote |
| Grid.PositionOf | game.js:47-51 | An id that names a cell names exactly one in-range position, and that position's id is the id itself |
| Grid.PositionOfAreaId | game.js:48 | Every in-range position's id is read back as that position |
| Grid.AreaIdInjective | src/App.tsx:44 | Two positions with the same id are the same position |
| Grid.RowMajorGridIsBijective | src/App.tsx:39-50 | A row-major grid has 16 pairwise-distinct ids, and every (row, col) of the board sits at index 4·row + col with its own id |
| Grid.InitializeAreas | game.js:41-57 | The nested loops build exactly 16 areas in row-major order, with id = row letter ++ (col+1), distinct ids, probability 0 and no odds |
| Grid.CreateInitialAreas | src/App.tsx:39-50 | Index k becomes row k div 4, col k mod 4, with ids A1..D4 all distinct and placeholder probability 0.1 and odds 9.0 |
| Probability.Clamp | game.js:208-209 | The clamped probability lies in [0.05, 0.25] whatever base + jitter is, equals it when it is already in range, and saturates at each bound |
| Probability.OddsTenths | game.js:217-218 | The odds in tenths are 9/p rounded half up: t ≤ 9/p + 0.5 < t + 1 |
| Probability.OddsBounds | game.js:214-220 | A probability in [0.05, 0.25] gives odds between 3.6 and 18.0 |
| Probability.OddsAntitone | game.js:217-218 | A likelier area never has higher odds |
| Probability.Refresh | src/App.tsx:89-107 | A refresh keeps every id, row and column, puts every probability in [0.05, 0.25], gives every area odds in [3.6, 18.0], and keeps the grid row-major |
| Probability.RefreshedTotal | game.js:311 | After a refresh the normalising total of the 16 probabilities lies in [0.8, 4.0] |
| Probability.SumBounds | src/App.tsx:53-56 | If every weight lies in [lo, hi], the total of n weights lies in [n·lo, n·hi] |
| Probability.Find | game.js:224 | The lookup finds nothing exactly when no area has the id, and otherwise finds the first area carrying it |
| Probability.GetOdds | game.js:223-226 | An id on no area yields "1.0". The lookup throws exactly when the first area with the id has no odds, and never on a priced board. Every text it returns is readable odds |
| Probability.GetOddsReact | src/App.tsx:109-113 | The React lookup never throws: it gives the DOM text wherever the DOM lookup succeeds, and "1.0" otherwise |
| Probability.OddsOf | game.js:282 | The odds a settlement multiplies by are those of the first area carrying the id, or 1.0 when no area carries it |
| Probability.ParsedOddsAgree | src/App.tsx:161 | Wherever the lookup succeeds, the one-decimal odds text of either version parses back to exactly the odds the area carries (1.0 for an unknown id), so reading odds through the string loses nothing |
| Probability.BadgesRenderIffPriced | game.js:224-225 | With distinct ids, every area's own odds lookup succeeds iff every area has odds |
| Probability.OddsOfCell | src/App.tsx:109-113 | On a priced board with distinct ids, looking up a cell's own id yields that cell's odds |
| Probability.Payout | game.js:283 | The win is the floor of wager × odds: win·10 ≤ wager·tenths < win·10 + 10, and it is nonnegative for a nonnegative wager |
| Strike.StrikeIndex | game.js:311-318 | A zero total strikes nothing. A struck index is in range and its cumulative bound reaches r; when the walk falls through, no bound reaches r |
| Strike.WalkFirstReach | game.js:313-318 | The loop returns the first index whose cumulative normalised bound reaches r, or falls through when none does |
| Strike.StrikeIndexFirstReach | game.js:306-321 | Area j is struck iff the total is nonzero, j's cumulative bound reaches r, and no earlier bound does |
| Strike.StrikeInterval | src/App.tsx:52-67 | With a positive total, area j is struck iff r lies in (Prefix(j)/total, Prefix(j+1)/total] (for j = 0, every r up to p0/total), an interval of width p_j/total |
| Strike.NoFallback | game.js:320 | With a positive total and r ≤ 1 the fallback is never taken |
| Strike.DetermineJs | game.js:306-321 | The result is always some area's id; it is the first area's when the walk falls through or when r ≤ p0/total |
| Strike.DetermineJsFirstReach | game.js:313-318 | When area j's cumulative bound is the first to reach r, the DOM draw returns area j's id |
| Strike.DetermineReact | src/App.tsx:52-67 | An empty list yields "A1"; otherwise the React draw picks the same area as the DOM draw |
| OddsTable.InsertSorted | src/App.tsx:244 | Inserting into an odds-sorted list keeps it sorted |
| OddsTable.InsertStable | src/App.tsx:244 | Inserting appends the new area after the areas of equal odds and leaves every other odds class untouched |
| OddsTable.SortByOdds | src/App.tsx:243-246 | The odds panel of a priced board is a permutation of the areas, non-decreasing in odds, and areas of equal odds keep their grid order |
| History.AddHistoryJs | game.js:380-398 | The new entry comes first, the older entries follow in order, and the length is min(old + 1, 10) |
| History.AddHistoryReact | src/App.tsx:136-150 | `[entry, ...prev].slice(0, 10)` is the same list as the DOM version's unshift-and-trim |
| History.RecordKeepsRecent | game.js:390-395 | After any number of settlements the history is exactly the newest ten (or fewer), newest first |
| History.AddKeepsNewestFirst | src/App.tsx:147 | Prepending an entry from a later round keeps the history in strictly decreasing round order |
| JsGame.Init | game.js:4-16 | With the first refresh moved before the grid cells are built, the game starts with score 1000, bet 100, 300 seconds on the clock, round 0, betting open, no selection, empty history and the invariant holding, and every odds badge lookup succeeds |
| JsGame.StartAsWritten | game.js:60-66 | The constructor in the source's order fails exactly when some area has no odds, as every area `initializeAreas` builds, and otherwise yields the state `Init` gives |
| JsGame.StartupThrows | game.js:107-113 | On the areas `initializeAreas` builds, the badge lookup for A1 throws, so the constructor as written never finishes |
| JsGame.SelectArea | game.js:142-157 | Ignored while locked; otherwise the single selection becomes the id and nothing else changes |
| JsGame.SetBetAmount | game.js:160-165 | The amount is taken iff it is at most the score, with no check of the active flag; otherwise nothing changes |
| JsGame.ClearSelection | game.js:168-174 | The selection is dropped unconditionally and nothing else changes |
| JsGame.ConfirmBet | game.js:177-192 | A no-op without a selection or while locked; the alert and no change when the score is short; otherwise the score drops by the bet, stays ≥ 0, and betting closes |
| JsGame.EndRound | game.js:276-303 | Without a selection nothing changes; with one, only the score and the history change, and the selection is cleared |
| JsGame.EndRoundPays | game.js:280-295 | A hit adds floor(bet × odds) and a miss leaves the score. The new entry records the current round, the selection, the struck area, the win flag and +win or −bet, and goes in front of the older ones, keeping at most 10 |
| JsGame.EndRoundKeepsInv | game.js:276-303 | Settling against any struck area keeps the score nonnegative and the history well ordered for the next round |
| JsGame.Tick | game.js:248-261 | While roundTime − 1 > 0 the tick only decrements. Otherwise it settles once against the DOM draw, restarts at 300, advances the round, reopens betting and refreshes the field |
| JsGame.Step | game.js:115-138 | Player events never touch the clock, the round or the history, and every event keeps the 16-cell field valid |
| JsGame.StepKeepsInv | game.js:177-192 | Every event, provided a bet change is to a nonnegative amount, keeps the score and bet nonnegative, the clock in [1, 300], and the history at most ten entries, newest first and all from past rounds |
| JsGame.RunKeepsInv | game.js:160-303 | The invariant holds after any run of events whose stakes are nonnegative |
| JsGame.Countdown | game.js:249-251 | From roundTime T, the first T − 1 ticks only count down |
| JsGame.SettlesOnLastTick | game.js:251-255 | The T-th tick advances the round, restarts the clock at 300 and reopens betting |
| JsGame.LastTickSettles | game.js:251-256 | A tick with one second left advances the round, restarts the clock at 300 and reopens betting |
| ReactGame.Init | src/App.tsx:70-78 | The game starts with score 1000, bet 100, 300 seconds on the clock, round 1, betting open, no selection or lock, empty history, and the invariant holding |
| ReactGame.HandleSelectArea | src/App.tsx:248-251 | Ignored while locked; otherwise the single selection becomes the id and nothing else changes |
| ReactGame.HandleBetChange | src/App.tsx:253-258 | A no-op while locked or when the amount exceeds the score; otherwise only the bet amount changes |
| ReactGame.HandleConfirmBet | src/App.tsx:260-270 | Guarded as in the DOM version. On success the score drops by the bet and stays ≥ 0, the stake is locked as the bet amount, and betting closes |
| ReactGame.HandleClear | src/App.tsx:272-276 | Ignored while locked; otherwise clears the selection and the lock and keeps the bet amount |
| ReactGame.RoundEnd | src/App.tsx:152-193 | Afterwards there is no selection or lock, betting is open, the clock is at 300, the round has advanced, the field is refreshed and the bet amount is kept; without a selection the score and history are untouched |
| ReactGame.Wager | src/App.tsx:154 | The stake is the locked bet when there is one, and the current bet amount otherwise |
| ReactGame.RoundEndPays | src/App.tsx:154-171 | The wager is lockedBet ?? betAmount. A hit adds floor(wager × odds) and records +win; a miss records −wager and leaves the score. The new entry records the current round, the selection and the struck area, and goes in front of the older ones, keeping at most 10 |
| ReactGame.RoundEndKeepsInv | src/App.tsx:152-193 | Settling against any struck area and opening the next round keeps the invariant |
| ReactGame.Tick | src/App.tsx:200-208 | A previous value above 1 is decremented. At 1 or below the tick settles exactly once against the React draw, which restarts the clock at 300 |
| ReactGame.Step | src/App.tsx:248-276 | Player events never touch the clock, the round or the history, and every event keeps the 16-cell field valid |
| ReactGame.StepKeepsInv | src/App.tsx:260-270 | Every event, provided a bet change is to a nonnegative amount, keeps the invariant, including the lock discipline: a stake is locked exactly while betting is closed, and a locked stake has a selection |
| ReactGame.RunKeepsInv | src/App.tsx:152-276 | The invariant holds after any run of events whose stakes are nonnegative |
| ReactGame.LockedBetIsFrozen | src/App.tsx:248-276 | While a bet is locked, select, bet change, confirm and clear change nothing |
| ReactGame.SettlementUsesLockedStake | src/App.tsx:154-171 | Settling a locked round pays floor(stake × odds) on a hit and records −stake on a miss, whatever the current bet amount is |
| ReactGame.Countdown | src/App.tsx:201-206 | From roundTime T, the first T − 1 ticks only count down |
| ReactGame.SettlesOnLastTick | src/App.tsx:202-204 | The T-th tick advances the round, restarts the clock at 300 and reopens betting |
| ReactGame.LastTickSettles | src/App.tsx:202-204 | A tick from one second left advances the round, restarts the clock at 300 and reopens betting |
| Versions.SameCadence | src/App.tsx:200-208 | From the same clock value both engines count down the same T − 1 ticks and both settle on the T-th |
| Versions.StakeAfterBetChange | game.js:160-165 | After confirming stake b and changing the amount to a, a hit pays floor(a × odds) in the DOM version and floor(b × odds) in the React version |
| Versions.UnconfirmedSelectionIsSettled | game.js:280-295 | In both versions a selection that was never confirmed is settled on the bet amount, though nothing was deducted |
| Versions.ClearAfterConfirm | game.js:168-174 | Clearing a confirmed bet in the DOM version makes its settlement pay and record nothing; React ignores that clear |
| Versions.WorkedExample | src/App.tsx:152-172 | Score 1000, a bet of 100 on B2 at odds 9.0: a hit leaves 1800 and records +900, and a strike on A1 leaves 900 and records −100 |
| Versions.WorkedExampleJs | game.js:276-295 | The same example on the DOM engine gives the same scores and entries |

## Left out

- Canvas drawing, DOM queries, CSS classes, React rendering and the batching of state updates: presentation. The hook state is one record, and each handler is applied to the latest state.
- The flash, banner and highlight timers, `console.log`, the result overlay and the "strike" presentation signal: cosmetic, and they never touch score or round state. The insufficient-score `alert` is modelled only as a flag returned by the confirm transition.
- `Math.random`, the choice of storm centre and the `Math.sqrt` distance: each area's distance and jitter arrive as a `Sample`, and the strike draw arrives as a real parameter.
- Floating-point arithmetic: probabilities, normalisation and rounding are exact reals. In IEEE doubles, `Math.floor(100 * 4.1)` is 409, while the model pays 410.
- Probability.Payout: states the exact floor of wager × tenths / 10, not the double-precision product the source floors.
- Format.ParseTenths: reads only the `<digits>.<digit>` shape that `toFixed(1)` produces, not everything `parseFloat` accepts.
- `Date` timestamps of history entries, and the `mm:ss` and locale formatting of the clock and history.
- `tailwind.config.js`: styling configuration.
- `displayOdds`, `updateGridOdds` and `displayHistory` in `game.js`: rendering only. The ordering that `displayOdds` applies is the one `OddsTable.SortByOdds` models.
- Strike.DetermineJs: requires a nonempty area list. In `game.js` an empty list would throw on `this.areas[0]`, but the game always holds sixteen areas.
- Strike.StrikeIndex: requires nonnegative weights. Probabilities are 0 before the first refresh and clamped into [0.05, 0.25] after it. When the total is 0, every cumulative bound in the source is NaN, so the walk falls through, and the model does the same.
- JsGame.SelectArea: when an id has no grid cell, `querySelector` returns null and the source throws after setting the selection. The model keeps the selection change and drops the exception.
- JsGame.Tick and ReactGame.Tick: a settlement needs exactly sixteen refresh samples, one per area.
- JsGame.Init: takes the areas returned by `InitializeAreas` as a parameter, because that constructor is a method with loops. It refreshes before anything reads the odds; the order the source uses throws (see "Findings").
- JsGame.StepKeepsInv and ReactGame.StepKeepsInv: a bet change to a negative amount is excluded. Amounts come only from the bet buttons: the presets 50, 100, 250 and 500 in `src/App.tsx` (line 337), and each `.bet-btn`'s `data-amount` in `game.js` (lines 123-126).
- OddsTable.SortByOdds: requires every area to carry odds. On an area without odds the comparator `a.odds - b.odds` is NaN, and the order `sort` then produces is not defined.
- The stale-closure and double-invocation behaviours of the React interval callback: these belong to React's scheduling, not to the game rules.

## Findings

| source | as written | input that shows it | evidently intended | confidence | as-written member | corrected member |
|---|---|---|---|---|---|---|
| game.js:60-66 | `init()` calls `createGridCells` before `updateLightningProbabilities` and `calculateOdds`. `createGridCells` renders each badge with `getOdds` (line 112), and `getOdds` calls `area.odds.toFixed(1)` (line 225). The areas from `initializeAreas` (lines 47-52) have no `odds`, so the call throws a TypeError and the constructor stops before the round timer starts | `new KanazawaNarukami()`: the first badge lookup, for A1, throws | compute the first probabilities and odds before building the grid cells, so every badge shows odds | high, read from the code, not executed | JsGame.StartupThrows | JsGame.Init |

=== FILE: engine.dfy ===
/** Vocabulary shared by the two round engines. */
module Engine {
  import opened Grid
  import opened Probability

  const RoundSeconds: int := 300
  const InitialScore: int := 1000
  const InitialBet: int := 100

  /**
   * The events that drive a game: the four player intents and the
   * once-a-second clock tick, which carries the random inputs a settlement
   * may need (the strike draw and one refresh sample per area).
   */
  datatype Cmd =
    | SelectArea(areaId: string)
    | SetBet(amount: int)
    | Confirm
    | Clear
    | ClockTick(draw: real, samples: seq<Sample>)

  /**
   * The area table a game in progress keeps: the sixteen grid cells, all
   * priced, none with a negative probability.
   */
  predicate ValidField(areas: seq<Area>) {
    RowMajorGrid(areas) && Priced(areas) && NonNegative(Weights(areas))
  }

  /** A tick supplies one refresh sample per cell. */
  predicate TickFits(cmd: Cmd) {
    cmd.ClockTick? ==> |cmd.samples| == CellCount
  }

  predicate AllTicksFit(cmds: seq<Cmd>) {
    forall k :: 0 <= k < |cmds| ==> TickFits(cmds[k])
  }

  /** The player only offers the preset, nonnegative wagers. */
  predicate NonNegativeBets(cmds: seq<Cmd>) {
    forall k :: 0 <= k < |cmds| ==> (cmds[k].SetBet? ==> cmds[k].amount >= 0)
  }

  /** A refresh keeps a valid field valid. */
  lemma RefreshKeepsField(areas: seq<Area>, samples: seq<Sample>)
    requires RowMajorGrid(areas) && |samples| == |areas|
    ensures ValidField(Refresh(areas, samples))
  {
  }
}

=== FILE: format.dfy ===
/**
 * Decimal text for the odds table. An area's odds are kept as a whole number
 * of tenths; `toFixed(1)` turns them into text and `parseFloat` reads that
 * text back when a round is settled.
 */
module Format {
  import opened Optional

  predicate IsDigit(c: char) {
    '0' <= c <= '9'
  }

  predicate AllDigits(s: string) {
    forall i :: 0 <= i < |s| ==> IsDigit(s[i])
  }

  function DigitChar(d: nat): (c: char)
    requires d < 10
    ensures IsDigit(c)
  {
    (48 + d) as char
  }

  function DigitValue(c: char): (d: nat)
    requires IsDigit(c)
    ensures d < 10
    ensures DigitChar(d) == c
  {
    (c as int - 48) as nat
  }

  /** Decimal rendering of a natural number, without leading zeros. */
  function NatToString(n: nat): (s: string)
    ensures 1 <= |s| && AllDigits(s)
    ensures |s| > 1 ==> s[0] != '0'
    decreases n
  {
    if n < 10 then [DigitChar(n)]
    else NatToString(n / 10) + [DigitChar(n % 10)]
  }

  /** Value of a string of decimal digits, most significant first. */
  function ParseDigits(s: string): (n: nat)
    requires AllDigits(s)
  {
    if |s| == 0 then 0
    else ParseDigits(s[..|s| - 1]) * 10 + DigitValue(s[|s| - 1])
  }

  lemma {:induction false} ParseNatToString(n: nat)
    ensures ParseDigits(NatToString(n)) == n
    decreases n
  {
    var s := NatToString(n);
    if n < 10 {
      assert s[..0] == [];
    } else {
      ParseNatToString(n / 10);
      assert s[..|s| - 1] == NatToString(n / 10);
      assert DigitValue(s[|s| - 1]) == n % 10;
    }
  }

  /** `(t / 10).toFixed(1)`: the integer part, a point, and the tenths digit. */
  function FormatTenths(t: nat): (s: string)
    ensures 3 <= |s| && s[|s| - 2] == '.'
    ensures AllDigits(s[..|s| - 2]) && IsDigit(s[|s| - 1])
  {
    var s := NatToString(t / 10) + "." + [DigitChar(t % 10)];
    assert s[..|s| - 2] == NatToString(t / 10);
    s
  }

  /**
   * `parseFloat` on the one shape of text the odds table produces,
   * `<digits>.<digit>`, as a number of tenths; any other text is None.
   */
  function ParseTenths(s: string): (r: Option<nat>)
    ensures r.Some? <==> 3 <= |s| && s[|s| - 2] == '.' && AllDigits(s[..|s| - 2]) && IsDigit(s[|s| - 1])
  {
    if 3 <= |s| && s[|s| - 2] == '.' && AllDigits(s[..|s| - 2]) && IsDigit(s[|s| - 1]) then
      Some(ParseDigits(s[..|s| - 2]) * 10 + DigitValue(s[|s| - 1]))
    else
      None
  }

  /** Digits without a leading zero have a positive value. */
  lemma {:induction false} ParseDigitsPositive(d: string)
    requires 1 <= |d| && AllDigits(d) && d[0] != '0'
    ensures ParseDigits(d) >= 1
    decreases |d|
  {
    if |d| > 1 {
      var init := d[..|d| - 1];
      assert init[0] == d[0];
      ParseDigitsPositive(init);
    }
  }

  /** A canonical digit string (no leading zero, unless it is one digit) is the rendering of its value. */
  lemma {:induction false} NatToStringParse(d: string)
    requires 1 <= |d| && AllDigits(d) && (|d| == 1 || d[0] != '0')
    ensures NatToString(ParseDigits(d)) == d
    decreases |d|
  {
    var init := d[..|d| - 1];
    if |d| == 1 {
      assert init == [];
    } else {
      assert init[0] == d[0];
      NatToStringParse(init);
      ParseDigitsPositive(init);
      var n := ParseDigits(d);
      assert n / 10 == ParseDigits(init) && n % 10 == DigitValue(d[|d| - 1]);
      assert d == init + [d[|d| - 1]];
    }
  }

  /** Reading back the odds text gives the odds that were written. */
  lemma TenthsRoundTrip(t: nat)
    ensures ParseTenths(FormatTenths(t)) == Some(t)
  {
    var s := FormatTenths(t);
    assert s[..|s| - 2] == NatToString(t / 10);
    ParseNatToString(t / 10);
  }

  /**
   * The converse round trip: odds text in the canonical shape `toFixed(1)`
   * produces (no leading zero before a multi-digit integer part) is exactly
   * the rendering of the tenths it is read as.
   */
  lemma FormatParse(s: string)
    requires ParseTenths(s).Some? && (|s| == 3 || s[0] != '0')
    ensures FormatTenths(ParseTenths(s).value) == s
  {
    var ip := s[..|s| - 2];
    assert ip[0] == s[0];
    NatToStringParse(ip);
    var t := ParseTenths(s).value;
    assert t / 10 == ParseDigits(ip) && t % 10 == DigitValue(s[|s| - 1]);
    assert s == ip + "." + [s[|s| - 1]];
  }
}

=== FILE: grid.dfy ===
/**
 * The 4x4 map: sixteen areas named by a row letter A-D and a column
 * number 1-4, listed row by row (A1, A2, ..., D4).
 */
module Grid {
  import opened Optional
  import Format

  const GridSize: nat := 4
  const CellCount: nat := 16
  const Rows: string := "ABCD"

  /**
   * One area. `probability` is this round's strike weight and `odds` its
   * payout multiplier in tenths (93 stands for odds of 9.3); `None` while
   * the area has no `odds` property yet, as the DOM version's areas start.
   */
  datatype Area = Area(id: string, row: int, col: int, probability: real, odds: Option<nat>)

  /** Every area carries odds. */
  predicate Priced(areas: seq<Area>) {
    forall k :: 0 <= k < |areas| ==> areas[k].odds.Some?
  }

  /** The id of the cell at (row, col): its row letter then `col + 1`. */
  function AreaId(row: nat, col: nat): (id: string)
    requires row < GridSize && col < GridSize
    ensures |id| == 2 && id[0] == Rows[row]
  {
    [Rows[row]] + Format.NatToString(col + 1)
  }

  function RowIndex(c: char): (r: Option<nat>)
    ensures r.Some? ==> r.value < GridSize && Rows[r.value] == c
  {
    if c == 'A' then Some(0)
    else if c == 'B' then Some(1)
    else if c == 'C' then Some(2)
    else if c == 'D' then Some(3)
    else None
  }

  /** The grid position an id names, or None for a text that names no cell. */
  function PositionOf(id: string): (p: Option<(nat, nat)>)
    ensures p.Some? ==> p.value.0 < GridSize && p.value.1 < GridSize
    ensures p.Some? ==> AreaId(p.value.0, p.value.1) == id
  {
    if |id| == 2 && RowIndex(id[0]).Some? && Format.IsDigit(id[1])
       && 1 <= Format.DigitValue(id[1]) <= GridSize then
      Some((RowIndex(id[0]).value, Format.DigitValue(id[1]) - 1))
    else
      None
  }

  /** Every position's id is read back as that position. */
  lemma PositionOfAreaId(row: nat, col: nat)
    requires row < GridSize && col < GridSize
    ensures PositionOf(AreaId(row, col)) == Some((row, col))
  {
    var id := AreaId(row, col);
    assert id[1] == Format.DigitChar(col + 1);
  }

  /** Distinct positions have distinct ids. */
  lemma AreaIdInjective(r1: nat, c1: nat, r2: nat, c2: nat)
    requires r1 < GridSize && c1 < GridSize && r2 < GridSize && c2 < GridSize
    requires AreaId(r1, c1) == AreaId(r2, c2)
    ensures r1 == r2 && c1 == c2
  {
    PositionOfAreaId(r1, c1);
    PositionOfAreaId(r2, c2);
  }

  /** The row-major layout both versions build: index k is row k / 4, column k % 4. */
  predicate RowMajorGrid(areas: seq<Area>) {
    && |areas| == CellCount
    && forall k :: 0 <= k < |areas| ==>
         areas[k].row == k / GridSize && areas[k].col == k % GridSize
         && areas[k].id == AreaId(k / GridSize, k % GridSize)
  }

  predicate DistinctIds(areas: seq<Area>) {
    forall i, j :: 0 <= i < j < |areas| ==> areas[i].id != areas[j].id
  }

  /** A row-major grid has sixteen distinct ids, and every cell of the 4x4 board appears in it. */
  lemma RowMajorGridIsBijective(areas: seq<Area>)
    requires RowMajorGrid(areas)
    ensures DistinctIds(areas)
    ensures forall r, c :: 0 <= r < GridSize && 0 <= c < GridSize ==>
              areas[r * GridSize + c].id == AreaId(r, c)
              && areas[r * GridSize + c].row == r && areas[r * GridSize + c].col == c
  {
    forall i, j | 0 <= i < j < |areas|
      ensures areas[i].id != areas[j].id
    {
      if areas[i].id == areas[j].id {
        AreaIdInjective(i / GridSize, i % GridSize, j / GridSize, j % GridSize);
        assert false;
      }
    }
    forall r, c | 0 <= r < GridSize && 0 <= c < GridSize
      ensures areas[r * GridSize + c].id == AreaId(r, c)
      ensures areas[r * GridSize + c].row == r && areas[r * GridSize + c].col == c
    {
      var k := r * GridSize + c;
      assert k / GridSize == r && k % GridSize == c;
    }
  }

  /**
   * `initializeAreas` of the DOM version: two nested loops over rows and
   * columns, every area starting with probability 0 and no odds at all.
   */
  method InitializeAreas() returns (areas: seq<Area>)
    ensures RowMajorGrid(areas)
    ensures DistinctIds(areas)
    ensures forall k :: 0 <= k < |areas| ==> areas[k].probability == 0.0 && areas[k].odds.None?
  {
    areas := [];
    var i := 0;
    while i < GridSize
      invariant 0 <= i <= GridSize
      invariant |areas| == GridSize * i
      invariant forall k :: 0 <= k < |areas| ==>
                  areas[k] == Area(AreaId(k / GridSize, k % GridSize), k / GridSize, k % GridSize, 0.0, None)
    {
      var j := 0;
      while j < GridSize
        invariant 0 <= j <= GridSize
        invariant |areas| == GridSize * i + j
        invariant forall k :: 0 <= k < |areas| ==>
                    areas[k] == Area(AreaId(k / GridSize, k % GridSize), k / GridSize, k % GridSize, 0.0, None)
      {
        assert (GridSize * i + j) / GridSize == i && (GridSize * i + j) % GridSize == j;
        areas := areas + [Area(AreaId(i, j), i, j, 0.0, None)];
        j := j + 1;
      }
      i := i + 1;
    }
    RowMajorGridIsBijective(areas);
  }

  /**
   * `createInitialAreas` of the React version: one cell per index, with the
   * placeholder probability 0.1 and odds 9.0 shown until the first refresh.
   */
  function CreateInitialAreas(): (areas: seq<Area>)
    ensures RowMajorGrid(areas)
    ensures DistinctIds(areas)
    ensures forall k :: 0 <= k < |areas| ==> areas[k].probability == 0.1 && areas[k].odds == Some(90)
  {
    var areas := seq(CellCount, k requires 0 <= k < CellCount =>
      Area(AreaId(k / GridSize, k % GridSize), k / GridSize, k % GridSize, 0.1, Some(90)));
    RowMajorGridIsBijective(areas);
    areas
  }
}

=== FILE: history.dfy ===
/**
 * The settlement history: newest entry first, at most ten entries. The
 * timestamp of an entry is not modelled.
 */
module History {

  const HistoryLimit: nat := 10

  /** `amount` is the points won on a win and minus the wager on a loss. */
  datatype Entry = Entry(round: int, isWin: bool, selectedArea: string, hitArea: string, amount: int)

  function Min(a: nat, b: nat): (m: nat) {
    if a < b then a else b
  }

  /** `addHistory` of the DOM version: `unshift`, then `slice(0, 10)` when over ten. */
  function AddHistoryJs(history: seq<Entry>, e: Entry): (h: seq<Entry>)
    ensures |h| == Min(|history| + 1, HistoryLimit)
    ensures h[0] == e
    ensures forall k :: 1 <= k < |h| ==> h[k] == history[k - 1]
  {
    var u := [e] + history;
    if |u| > HistoryLimit then u[..HistoryLimit] else u
  }

  /** `addHistory` of the React version: `[entry, ...prev].slice(0, 10)`; the same list. */
  function AddHistoryReact(history: seq<Entry>, e: Entry): (h: seq<Entry>)
    ensures h == AddHistoryJs(history, e)
  {
    var u := [e] + history;
    u[..Min(|u|, HistoryLimit)]
  }

  /** Reference: the newest ten (or fewer) of the settlements `es`, newest first. */
  function Recent(es: seq<Entry>): (h: seq<Entry>)
  {
    var n := Min(|es|, HistoryLimit);
    seq(n, k requires 0 <= k < n => es[|es| - 1 - k])
  }

  /** The history after recording the settlements `es` in order, starting from none. */
  function Record(es: seq<Entry>): (history: seq<Entry>)
  {
    if |es| == 0 then [] else AddHistoryJs(Record(es[..|es| - 1]), es[|es| - 1])
  }

  /** However many rounds were recorded, the history holds exactly the newest ten, newest first. */
  lemma {:induction false} RecordKeepsRecent(es: seq<Entry>)
    ensures Record(es) == Recent(es)
    decreases |es|
  {
    if |es| > 0 {
      var init := es[..|es| - 1];
      RecordKeepsRecent(init);
      var h := Record(es);
      var want := Recent(es);
      assert |h| == |want|;
      forall k | 0 <= k < |h|
        ensures h[k] == want[k]
      {
        if k > 0 {
          assert h[k] == Recent(init)[k - 1];
        }
      }
    }
  }

  /** Entries are in strictly decreasing round order: newest first. */
  predicate NewestFirst(history: seq<Entry>) {
    forall i, j :: 0 <= i < j < |history| ==> history[i].round > history[j].round
  }

  /** Recording an entry from a later round than every stored one keeps the newest-first order. */
  lemma AddKeepsNewestFirst(history: seq<Entry>, e: Entry)
    requires NewestFirst(history)
    requires forall k :: 0 <= k < |history| ==> history[k].round < e.round
    ensures NewestFirst(AddHistoryJs(history, e))
  {
    var h := AddHistoryJs(history, e);
    forall i, j | 0 <= i < j < |h|
      ensures h[i].round > h[j].round
    {
      if i > 0 {
        assert h[i] == history[i - 1] && h[j] == history[j - 1];
      }
    }
  }

  /**
   * The history of a game whose current round is `round`: at most ten
   * entries, newest first, all from rounds already settled.
   */
  predicate WellOrdered(history: seq<Entry>, round: int) {
    && |history| <= HistoryLimit
    && NewestFirst(history)
    && forall k :: 0 <= k < |history| ==> history[k].round < round
  }

  /** Recording the current round's entry, then advancing the round, keeps the history well ordered. */
  lemma RecordThenAdvance(history: seq<Entry>, e: Entry)
    requires WellOrdered(history, e.round)
    ensures WellOrdered(AddHistoryJs(history, e), e.round + 1)
  {
    AddKeepsNewestFirst(history, e);
  }

  /** Advancing the round without recording keeps the history well ordered. */
  lemma Advance(history: seq<Entry>, round: int)
    requires WellOrdered(history, round)
    ensures WellOrdered(history, round + 1)
  {
  }
}

=== FILE: jsgame.dfy ===
/**
 * The round engine of the DOM version (`game.js`): one mutable game object,
 * modelled as an immutable state and pure transitions. Display updates,
 * button states, the result banner and the flash effects are left out.
 */
module JsGame {
  import opened Optional
  import opened Grid
  import opened Probability
  import opened History
  import Strike
  import Engine
  import Format

  datatype State = State(
    score: int,
    betAmount: int,
    selectedArea: Option<string>,
    roundTime: int,
    currentRound: int,
    isRoundActive: bool,
    history: seq<Entry>,
    areas: seq<Area>)

  /**
   * The constructor: score 1000, bet 100, round 0, a full round on the
   * clock, and the grid of `initializeAreas` after its first refresh. The
   * refresh comes first here, so every odds badge has odds to show.
   */
  function Init(areas: seq<Area>, samples: seq<Sample>): (s: State)
    requires RowMajorGrid(areas) && |samples| == |areas|
    ensures Inv(s)
    ensures s.score == Engine.InitialScore && s.betAmount == Engine.InitialBet
    ensures s.roundTime == Engine.RoundSeconds && s.currentRound == 0 && s.isRoundActive
    ensures s.history == [] && s.selectedArea == None
    ensures forall k :: 0 <= k < |s.areas| ==> GetOdds(s.areas, s.areas[k].id).Some?
  {
    Engine.RefreshKeepsField(areas, samples);
    State(Engine.InitialScore, Engine.InitialBet, None, Engine.RoundSeconds, 0, true, [], Refresh(areas, samples))
  }

  /**
   * The constructor in the order `init()` runs it: `createGridCells`
   * renders every area's odds badge with `getOdds` before the first
   * `updateLightningProbabilities` and `calculateOdds`. `None` when a badge
   * lookup throws, which ends the constructor.
   */
  function StartAsWritten(areas: seq<Area>, samples: seq<Sample>): (r: Option<State>)
    requires RowMajorGrid(areas) && |samples| == |areas|
    ensures r.None? <==> !Priced(areas)
    ensures r.Some? ==> r.value == Init(areas, samples)
  {
    RowMajorGridIsBijective(areas);
    BadgesRenderIffPriced(areas);
    if forall k :: 0 <= k < |areas| ==> GetOdds(areas, areas[k].id).Some? then Some(Init(areas, samples))
    else None
  }

  /**
   * The areas `initializeAreas` builds have no odds, so the first badge
   * lookup, for A1, throws: the constructor as written never reaches the
   * first refresh or the round timer.
   */
  lemma StartupThrows(areas: seq<Area>, samples: seq<Sample>)
    requires RowMajorGrid(areas) && |samples| == |areas|
    requires forall k :: 0 <= k < |areas| ==> areas[k].odds.None?
    ensures areas[0].id == "A1" && GetOdds(areas, "A1").None?
    ensures StartAsWritten(areas, samples).None?
  {
    assert Format.NatToString(1) == "1";
    assert areas[0].id == "A1";
  }

  /** `selectArea`: ignored while a bet is locked; otherwise the one selection becomes `id`. */
  function SelectArea(s: State, id: string): (r: State)
    ensures !s.isRoundActive ==> r == s
    ensures s.isRoundActive ==> r.selectedArea == Some(id) && r.(selectedArea := s.selectedArea) == s
  {
    if !s.isRoundActive then s else s.(selectedArea := Some(id))
  }

  /**
   * `setBetAmount`: accepted whenever it does not exceed the score, even
   * while a bet is locked (there is no check of the active flag).
   */
  function SetBetAmount(s: State, amount: int): (r: State)
    ensures amount <= s.score ==> r.betAmount == amount && r.(betAmount := s.betAmount) == s
    ensures amount > s.score ==> r == s
  {
    if amount <= s.score then s.(betAmount := amount) else s
  }

  /** `clearSelection`: drops the selection unconditionally, locked bet or not. */
  function ClearSelection(s: State): (r: State)
    ensures !Truthy(r.selectedArea)
    ensures r.(selectedArea := s.selectedArea) == s
  {
    s.(selectedArea := None)
  }

  /**
   * `confirmBet`; the second component is true when the insufficient-score
   * alert is shown. Without a selection or while locked nothing happens.
   */
  function ConfirmBet(s: State): (r: (State, bool))
    ensures !Truthy(s.selectedArea) || !s.isRoundActive ==> r == (s, false)
    ensures r.1 <==> Truthy(s.selectedArea) && s.isRoundActive && s.score < s.betAmount
    ensures r.1 ==> r.0 == s
    ensures Truthy(s.selectedArea) && s.isRoundActive && s.betAmount <= s.score ==>
              && r.0.score == s.score - s.betAmount && 0 <= r.0.score
              && !r.0.isRoundActive
              && r.0.(score := s.score, isRoundActive := true) == s
  {
    if !Truthy(s.selectedArea) || !s.isRoundActive then (s, false)
    else if s.score < s.betAmount then (s, true)
    else (s.(score := s.score - s.betAmount, isRoundActive := false), false)
  }

  /**
   * `endRound` once the struck area `hit` is known. A selection is settled
   * as a bet of the CURRENT `betAmount`: a win credits floor(bet x odds), a
   * loss changes no score (the stake left at confirmation); either way an
   * entry is recorded and the selection cleared. Without a selection
   * nothing changes.
   */
  function EndRound(s: State, hit: string): (r: State)
    requires Priced(s.areas)
    ensures !Truthy(s.selectedArea) ==> r == s
    ensures Truthy(s.selectedArea) ==>
              && r.selectedArea == None
              && r.(score := s.score, history := s.history, selectedArea := s.selectedArea) == s
  {
    if !Truthy(s.selectedArea) then s
    else
      var sel := s.selectedArea.value;
      var isWin := sel == hit;
      PricedHasOdds(s.areas, sel);
      var odds := OddsOf(s.areas, sel);
      var winAmount := if isWin then Payout(s.betAmount, odds) else 0;
      var score := if isWin then s.score + winAmount else s.score;
      var entry := Entry(s.currentRound, isWin, sel, hit, if isWin then winAmount else -s.betAmount);
      s.(score := score, history := AddHistoryJs(s.history, entry), selectedArea := None)
  }

  /**
   * Settling a selection on the current bet amount: a hit adds floor(bet x
   * odds), a miss leaves the score (the stake left at confirmation). The new
   * entry, +win or -bet, goes in front of the older ones.
   */
  lemma EndRoundPays(s: State, hit: string)
    requires Truthy(s.selectedArea) && Priced(s.areas)
    ensures HasOdds(s.areas, s.selectedArea.value)
    ensures var sel := s.selectedArea.value;
            var r := EndRound(s, hit);
            && r.score == (if sel == hit then s.score + Payout(s.betAmount, OddsOf(s.areas, sel)) else s.score)
            && |r.history| == Min(|s.history| + 1, HistoryLimit)
            && r.history[0].round == s.currentRound
            && r.history[0].selectedArea == sel && r.history[0].hitArea == hit
            && r.history[0].isWin == (sel == hit)
            && r.history[0].amount == (if sel == hit then Payout(s.betAmount, OddsOf(s.areas, sel)) else -s.betAmount)
            && r.history[1..] == s.history[..|r.history| - 1]
  {
    PricedHasOdds(s.areas, s.selectedArea.value);
    var r := EndRound(s, hit);
    assert r.history[1..] == s.history[..|r.history| - 1];
  }

  /**
   * One second of `startRoundTimer`: decrement, and when the counter
   * reaches 0 settle against the strike drawn with `draw`, restart the
   * clock at 300, advance the round, reopen betting and refresh the field.
   */
  function Tick(s: State, draw: real, samples: seq<Sample>): (r: State)
    requires Engine.ValidField(s.areas) && |samples| == CellCount
    ensures Engine.ValidField(r.areas)
    ensures s.roundTime - 1 > 0 ==> r == s.(roundTime := s.roundTime - 1)
    ensures s.roundTime - 1 <= 0 ==>
              var settled := EndRound(s, Strike.DetermineJs(s.areas, draw));
              && r.roundTime == Engine.RoundSeconds
              && r.currentRound == s.currentRound + 1
              && r.isRoundActive
              && r.score == settled.score && r.history == settled.history
              && r.selectedArea == settled.selectedArea && r.betAmount == s.betAmount
              && r.areas == Refresh(s.areas, samples)
  {
    var t := s.roundTime - 1;
    if t > 0 then s.(roundTime := t)
    else
      // `endRound` does not read the counter, so settling `s` itself is the same
      var settled := EndRound(s, Strike.DetermineJs(s.areas, draw));
      Engine.RefreshKeepsField(s.areas, samples);
      settled.(roundTime := Engine.RoundSeconds, currentRound := s.currentRound + 1,
               isRoundActive := true, areas := Refresh(s.areas, samples))
  }

  /** Dispatches one event. */
  function Step(s: State, cmd: Engine.Cmd): (r: State)
    requires Engine.ValidField(s.areas) && Engine.TickFits(cmd)
    ensures Engine.ValidField(r.areas)
    ensures !cmd.ClockTick? ==> r.roundTime == s.roundTime && r.currentRound == s.currentRound
                                && r.history == s.history
  {
    match cmd
    case SelectArea(id) => SelectArea(s, id)
    case SetBet(amount) => SetBetAmount(s, amount)
    case Confirm => ConfirmBet(s).0
    case Clear => ClearSelection(s)
    case ClockTick(draw, samples) => Tick(s, draw, samples)
  }

  /** Runs a sequence of events; the area table stays the valid sixteen-cell grid throughout. */
  function Run(s: State, cmds: seq<Engine.Cmd>): (r: State)
    requires Engine.ValidField(s.areas) && Engine.AllTicksFit(cmds)
    ensures Engine.ValidField(r.areas)
    decreases |cmds|
  {
    if |cmds| == 0 then s else Run(Step(s, cmds[0]), cmds[1..])
  }

  /** `n` ticks with the same random inputs. */
  function Ticks(s: State, n: nat, draw: real, samples: seq<Sample>): (r: State)
    requires Engine.ValidField(s.areas) && |samples| == CellCount
    ensures Engine.ValidField(r.areas)
    decreases n
  {
    if n == 0 then s else Tick(Ticks(s, n - 1, draw, samples), draw, samples)
  }

  /**
   * The invariant of a game in progress: a nonnegative score and bet, the
   * clock within (0, 300], at most ten entries in history, newest first and
   * all from earlier rounds.
   */
  predicate Inv(s: State) {
    && Engine.ValidField(s.areas)
    && s.score >= 0 && s.betAmount >= 0
    && 1 <= s.roundTime <= Engine.RoundSeconds
    && s.currentRound >= 0
    && WellOrdered(s.history, s.currentRound)
  }

  /** Every event with a nonnegative wager keeps the invariant. */
  lemma StepKeepsInv(s: State, cmd: Engine.Cmd)
    requires Inv(s) && Engine.TickFits(cmd)
    requires cmd.SetBet? ==> cmd.amount >= 0
    ensures Inv(Step(s, cmd))
  {
    match cmd
    case ClockTick(draw, samples) => TickKeepsInv(s, draw, samples);
    case SelectArea(id) =>
    case SetBet(amount) =>
    case Confirm =>
    case Clear =>
  }

  /** A tick keeps the invariant, whether it only counts down or settles the round. */
  lemma TickKeepsInv(s: State, draw: real, samples: seq<Sample>)
    requires Inv(s) && |samples| == CellCount
    ensures Inv(Tick(s, draw, samples))
  {
    if s.roundTime - 1 <= 0 {
      EndRoundKeepsInv(s, Strike.DetermineJs(s.areas, draw));
    }
  }

  /**
   * Settling against any struck area keeps the score nonnegative and leaves
   * a history that is well ordered for the next round.
   */
  lemma EndRoundKeepsInv(s: State, hit: string)
    requires Inv(s)
    ensures var e := EndRound(s, hit);
            e.score >= 0 && WellOrdered(e.history, s.currentRound + 1)
  {
    if Truthy(s.selectedArea) {
      EndRoundPays(s, hit);
      RecordThenAdvance(s.history, EndRound(s, hit).history[0]);
    } else {
      Advance(s.history, s.currentRound);
    }
  }

  /** The invariant holds after any run of events whose wagers are nonnegative. */
  lemma {:induction false} RunKeepsInv(s: State, cmds: seq<Engine.Cmd>)
    requires Inv(s) && Engine.AllTicksFit(cmds) && Engine.NonNegativeBets(cmds)
    ensures Inv(Run(s, cmds))
    decreases |cmds|
  {
    if |cmds| > 0 {
      StepKeepsInv(s, cmds[0]);
      RunKeepsInv(Step(s, cmds[0]), cmds[1..]);
    }
  }

  /** From `roundTime = T`, the first T - 1 ticks only count down. */
  lemma {:induction false} Countdown(s: State, n: nat, draw: real, samples: seq<Sample>)
    requires Engine.ValidField(s.areas) && |samples| == CellCount
    requires n < s.roundTime
    ensures Ticks(s, n, draw, samples) == s.(roundTime := s.roundTime - n)
    decreases n
  {
    if n > 0 {
      Countdown(s, n - 1, draw, samples);
    }
  }

  /** The T-th tick settles: the round advances and the clock restarts at 300. */
  lemma SettlesOnLastTick(s: State, draw: real, samples: seq<Sample>)
    requires Engine.ValidField(s.areas) && |samples| == CellCount
    requires s.roundTime >= 1
    ensures var r := Ticks(s, s.roundTime as nat, draw, samples);
            r.currentRound == s.currentRound + 1 && r.roundTime == Engine.RoundSeconds && r.isRoundActive
  {
    var n := s.roundTime as nat;
    var before := Ticks(s, n - 1, draw, samples);
    Countdown(s, n - 1, draw, samples);
    TicksLast(s, n, draw, samples);
    LastTickSettles(before, draw, samples);
  }

  /** The last of n ticks is applied to the state after the first n - 1. */
  lemma TicksLast(s: State, n: nat, draw: real, samples: seq<Sample>)
    requires Engine.ValidField(s.areas) && |samples| == CellCount && n >= 1
    ensures Ticks(s, n, draw, samples) == Tick(Ticks(s, n - 1, draw, samples), draw, samples)
  {
  }

  /** A tick with one second left settles the round and opens the next. */
  lemma LastTickSettles(s: State, draw: real, samples: seq<Sample>)
    requires Engine.ValidField(s.areas) && |samples| == CellCount && s.roundTime == 1
    ensures var r := Tick(s, draw, samples);
            r.currentRound == s.currentRound + 1 && r.roundTime == Engine.RoundSeconds && r.isRoundActive
  {
  }
}

=== FILE: oddstable.dfy ===
/**
 * The odds panel: the areas ordered by ascending odds with
 * `[...areas].sort((a, b) => a.odds - b.odds)`. `Array.prototype.sort` is
 * stable, so areas with equal odds keep their grid order; the model is an
 * insertion sort with that property.
 */
module OddsTable {
  import opened Optional
  import opened Grid

  /** The odds the comparator subtracts; the panel is only ever built from a priced board. */
  function Key(a: Area): (v: nat)
    ensures a.odds.Some? ==> a.odds == Some(v)
  {
    a.odds.GetOr(0)
  }

  predicate SortedByOdds(s: seq<Area>) {
    forall i, j :: 0 <= i < j < |s| ==> Key(s[i]) <= Key(s[j])
  }

  /** The areas of `s` whose odds are `v`, in their order in `s`. */
  function WithOdds(s: seq<Area>, v: nat): (members: seq<Area>)
  {
    if |s| == 0 then []
    else WithOdds(s[..|s| - 1], v) + (if Key(s[|s| - 1]) == v then [s[|s| - 1]] else [])
  }

  lemma WithOddsAppend(s: seq<Area>, x: Area, v: nat)
    ensures WithOdds(s + [x], v) == WithOdds(s, v) + (if Key(x) == v then [x] else [])
  {
    assert (s + [x])[..|s|] == s;
  }

  /** Inserts `x` after every element with odds no greater than its own. */
  function Insert(t: seq<Area>, x: Area): (r: seq<Area>)
    ensures multiset(r) == multiset(t) + multiset{x}
    ensures forall y :: y in r ==> y in t || y == x
    decreases |t|
  {
    if |t| == 0 then [x]
    else
      var last := t[|t| - 1];
      var init := t[..|t| - 1];
      assert t == init + [last];
      if Key(last) <= Key(x) then t + [x]
      else Insert(init, x) + [last]
  }

  /** Inserting into a sorted list keeps it sorted. */
  lemma {:induction false} InsertSorted(t: seq<Area>, x: Area)
    requires SortedByOdds(t)
    ensures SortedByOdds(Insert(t, x))
    decreases |t|
  {
    if |t| > 0 {
      var last := t[|t| - 1];
      var init := t[..|t| - 1];
      assert t == init + [last];
      if Key(x) < Key(last) {
        InsertSorted(init, x);
        var u := Insert(init, x);
        forall k | 0 <= k < |u|
          ensures Key(u[k]) <= Key(last)
        {
          assert u[k] in u;
        }
        var r := u + [last];
        assert Insert(t, x) == r;
        forall i, j | 0 <= i < j < |r|
          ensures Key(r[i]) <= Key(r[j])
        {
          assert r[i] == u[i];
        }
      } else {
        var r := t + [x];
        assert Insert(t, x) == r;
        forall i, j | 0 <= i < j < |r|
          ensures Key(r[i]) <= Key(r[j])
        {
          assert r[i] == t[i];
        }
      }
    }
  }

  /** Inserting into a sorted list appends `x` to the areas of its odds and leaves the others alone. */
  lemma {:induction false} InsertStable(t: seq<Area>, x: Area, v: nat)
    requires SortedByOdds(t)
    ensures WithOdds(Insert(t, x), v) == WithOdds(t, v) + (if Key(x) == v then [x] else [])
    decreases |t|
  {
    if |t| == 0 {
      WithOddsAppend([], x, v);
    } else {
      var last := t[|t| - 1];
      var init := t[..|t| - 1];
      assert t == init + [last];
      if Key(last) <= Key(x) {
        WithOddsAppend(t, x, v);
      } else {
        InsertStable(init, x, v);
        WithOddsAppend(Insert(init, x), last, v);
        WithOddsAppend(init, last, v);
      }
    }
  }

  /** Reordering a priced list leaves it priced. */
  lemma PermutationPriced(a: seq<Area>, b: seq<Area>)
    requires Priced(a) && multiset(a) == multiset(b)
    ensures Priced(b)
  {
    forall k | 0 <= k < |b|
      ensures b[k].odds.Some?
    {
      assert b[k] in multiset(a);
    }
  }

  /**
   * `sortedOdds`: a permutation of the areas in non-decreasing odds, in
   * which areas of equal odds keep their original relative order. Every
   * area is priced: `a.odds - b.odds` on a missing odds would be NaN.
   */
  function SortByOdds(s: seq<Area>): (r: seq<Area>)
    requires Priced(s)
    ensures multiset(r) == multiset(s)
    ensures Priced(r)
    ensures SortedByOdds(r)
    ensures forall v :: WithOdds(r, v) == WithOdds(s, v)
    decreases |s|
  {
    if |s| == 0 then []
    else
      var init := s[..|s| - 1];
      var x := s[|s| - 1];
      assert s == init + [x];
      var r := Insert(SortByOdds(init), x);
      InsertSorted(SortByOdds(init), x);
      PermutationPriced(s, r);
      forall v
        ensures WithOdds(r, v) == WithOdds(s, v)
      {
        InsertStable(SortByOdds(init), x, v);
        WithOddsAppend(init, x, v);
      }
      r
  }
}

=== FILE: optional.dfy ===
/** The nullable values of the source (`string | null`, `number | null`). */
module Optional {

  datatype Option<+T> = None | Some(value: T) {

    /** The value, or `default` when absent: the `??` operator of the source. */
    function GetOr(default: T): (v: T) {
      match this
      case Some(v) => v
      case None => default
    }
  }

  /** JavaScript truthiness of a nullable string: `null` and `""` are both falsy. */
  predicate Truthy(o: Option<string>) {
    o.Some? && o.value != ""
  }
}

=== FILE: probability.dfy ===
/**
 * The probability field: each round every area gets a strike probability
 * from its distance to a random storm centre plus a random jitter, clamped
 * to [0.05, 0.25], and odds derived from it with a 0.9 house edge.
 */
module Probability {
  import opened Optional
  import opened Grid
  import Format

  const MinProbability: real := 0.05
  const MaxProbability: real := 0.25
  const HouseEdge: real := 0.9
  /** Odds shown for an id that is not on the board: "1.0". */
  const DefaultOddsTenths: nat := 10

  /**
   * The random inputs of one area's refresh: its Euclidean distance to the
   * storm centre and the jitter drawn from [0, 0.05).
   */
  datatype Sample = Sample(distance: real, jitter: real)

  function BaseProbability(distance: real): (p: real) {
    0.25 - distance * 0.05
  }

  /** `Math.max(0.05, Math.min(0.25, x))`. */
  function Clamp(x: real): (p: real)
    ensures MinProbability <= p <= MaxProbability
    ensures MinProbability <= x <= MaxProbability ==> p == x
    ensures x < MinProbability ==> p == MinProbability
    ensures x > MaxProbability ==> p == MaxProbability
  {
    var upper := if MaxProbability < x then MaxProbability else x;
    if MinProbability < upper then upper else MinProbability
  }

  /**
   * `Math.round((1 / p) * 0.9 * 10)`: odds in tenths, rounding half up
   * (`Math.round` is `floor(x + 0.5)`), over exact reals.
   */
  function OddsTenths(p: real): (t: nat)
    requires p > 0.0
    ensures t as real <= 9.0 / p + 0.5 < t as real + 1.0
  {
    var scaled := (1.0 / p) * HouseEdge * 10.0;
    assert scaled == 9.0 / p;
    assert 9.0 / p > 0.0;
    (scaled + 0.5).Floor
  }

  lemma DivideMonotone(p: real, q: real)
    requires 0.0 < p <= q
    ensures 9.0 / q <= 9.0 / p
  {
    assert 9.0 / q * q == 9.0 && 9.0 / p * p == 9.0;
    assert 9.0 / p * q >= 9.0 / p * p;
  }

  /** A clamped probability gives odds between 3.6 and 18.0. */
  lemma OddsBounds(p: real)
    requires MinProbability <= p <= MaxProbability
    ensures 36 <= OddsTenths(p) <= 180
  {
    DivideMonotone(p, MaxProbability);
    DivideMonotone(MinProbability, p);
    assert 9.0 / MaxProbability == 36.0;
    assert 9.0 / MinProbability == 180.0;
  }

  /** A likelier area never pays more: odds fall as probability rises. */
  lemma OddsAntitone(p: real, q: real)
    requires 0.0 < p <= q
    ensures OddsTenths(q) <= OddsTenths(p)
  {
    DivideMonotone(p, q);
  }

  /** The area's probability and odds for one refresh. */
  function Refreshed(a: Area, s: Sample): (b: Area)
    ensures b.id == a.id && b.row == a.row && b.col == a.col
    ensures MinProbability <= b.probability <= MaxProbability
    ensures b.odds == Some(OddsTenths(b.probability))
    ensures 36 <= OddsTenths(b.probability) <= 180
  {
    var p := Clamp(BaseProbability(s.distance) + s.jitter);
    OddsBounds(p);
    a.(probability := p, odds := Some(OddsTenths(p)))
  }

  /**
   * `updateLightningProbabilities` followed by `calculateOdds` (DOM version),
   * or `refreshProbabilities` (React version): one sample per area.
   */
  function Refresh(areas: seq<Area>, samples: seq<Sample>): (r: seq<Area>)
    requires |samples| == |areas|
    ensures |r| == |areas|
    ensures forall k :: 0 <= k < |r| ==>
              r[k].id == areas[k].id && r[k].row == areas[k].row && r[k].col == areas[k].col
    ensures forall k :: 0 <= k < |r| ==> MinProbability <= r[k].probability <= MaxProbability
    ensures forall k :: 0 <= k < |r| ==> r[k].odds.Some? && 36 <= r[k].odds.value <= 180
    ensures Priced(r)
    ensures RowMajorGrid(areas) ==> RowMajorGrid(r)
  {
    seq(|areas|, k requires 0 <= k < |areas| => Refreshed(areas[k], samples[k]))
  }

  /** Left-to-right sum, as `reduce((sum, x) => sum + x, 0)` computes it. */
  function Sum(ps: seq<real>): (total: real) {
    if |ps| == 0 then 0.0 else Sum(ps[..|ps| - 1]) + ps[|ps| - 1]
  }

  function Weights(areas: seq<Area>): (ps: seq<real>)
    ensures |ps| == |areas|
    ensures forall k :: 0 <= k < |ps| ==> ps[k] == areas[k].probability
  {
    seq(|areas|, k requires 0 <= k < |areas| => areas[k].probability)
  }

  predicate NonNegative(ps: seq<real>) {
    forall k :: 0 <= k < |ps| ==> ps[k] >= 0.0
  }

  /** Bounding every weight bounds their sum. */
  lemma {:induction false} SumBounds(ps: seq<real>, lo: real, hi: real)
    requires forall k :: 0 <= k < |ps| ==> lo <= ps[k] <= hi
    ensures |ps| as real * lo <= Sum(ps) <= |ps| as real * hi
    decreases |ps|
  {
    if |ps| > 0 {
      var init := ps[..|ps| - 1];
      SumBounds(init, lo, hi);
      assert |ps| as real == |init| as real + 1.0;
      assert Sum(ps) == Sum(init) + ps[|ps| - 1];
    }
  }

  /** After a refresh the sixteen probabilities sum to between 0.8 and 4.0. */
  lemma RefreshedTotal(areas: seq<Area>, samples: seq<Sample>)
    requires |areas| == CellCount && |samples| == |areas|
    ensures 0.8 <= Sum(Weights(Refresh(areas, samples))) <= 4.0
  {
    SumBounds(Weights(Refresh(areas, samples)), MinProbability, MaxProbability);
  }

  /** `Array.prototype.find` by id: the first area carrying `id`. */
  function Find(areas: seq<Area>, id: string): (r: Option<Area>)
    ensures r.None? <==> forall k :: 0 <= k < |areas| ==> areas[k].id != id
    ensures r.Some? ==> exists k :: 0 <= k < |areas| && areas[k] == r.value && r.value.id == id
                                   && forall j :: 0 <= j < k ==> areas[j].id != id
  {
    if |areas| == 0 then None
    else if areas[0].id == id then Some(areas[0])
    else
      var r := Find(areas[1..], id);
      if r.Some? then
        var k :| 0 <= k < |areas[1..]| && areas[1..][k] == r.value && r.value.id == id
                 && forall j :: 0 <= j < k ==> areas[1..][j].id != id;
        assert areas[k + 1] == r.value;
        r
      else r
  }

  /** The lookup of `id` does not land on an area without odds. */
  predicate HasOdds(areas: seq<Area>, id: string) {
    Find(areas, id).None? || Find(areas, id).value.odds.Some?
  }

  /**
   * `getOdds` of the DOM version: the area's odds as one-decimal text, or
   * "1.0" for an unknown id. On an area that has no `odds` yet,
   * `area.odds.toFixed(1)` throws a TypeError, written `None` here.
   */
  function GetOdds(areas: seq<Area>, id: string): (text: Option<string>)
    ensures (forall k :: 0 <= k < |areas| ==> areas[k].id != id) ==> text == Some("1.0")
    ensures text.None? ==> exists k :: 0 <= k < |areas| && areas[k].id == id && areas[k].odds.None?
    ensures text.Some? <==> HasOdds(areas, id)
    ensures Priced(areas) ==> text.Some?
    ensures text.Some? ==> Format.ParseTenths(text.value).Some?
  {
    Format.TenthsRoundTrip(DefaultOddsTenths);
    match Find(areas, id)
    case Some(a) =>
      if a.odds.None? then None
      else Format.TenthsRoundTrip(a.odds.value); Some(Format.FormatTenths(a.odds.value))
    case None => Some("1.0")
  }

  /**
   * `getOdds` of the React version: `find(...)?.odds?.toFixed(1) ?? "1.0"`
   * never throws; wherever the DOM lookup succeeds the two give the same text.
   */
  function GetOddsReact(areas: seq<Area>, id: string): (text: string)
    ensures HasOdds(areas, id) ==> GetOdds(areas, id) == Some(text)
    ensures !HasOdds(areas, id) ==> text == "1.0"
  {
    match Find(areas, id)
    case Some(a) => if a.odds.None? then "1.0" else Format.FormatTenths(a.odds.value)
    case None => "1.0"
  }

  /**
   * The odds a settlement multiplies by, in tenths: those of the first area
   * carrying `id`, or 1.0 when no area does.
   */
  function OddsOf(areas: seq<Area>, id: string): (t: nat)
    requires HasOdds(areas, id)
    ensures forall k :: 0 <= k < |areas| && areas[k].id == id && (forall j :: 0 <= j < k ==> areas[j].id != id) ==>
              areas[k].odds == Some(t)
    ensures (forall k :: 0 <= k < |areas| ==> areas[k].id != id) ==> t == DefaultOddsTenths
  {
    match Find(areas, id)
    case Some(a) => a.odds.value
    case None => DefaultOddsTenths
  }

  /**
   * Settlement reads the odds back as `parseFloat(getOdds(id))`; the text
   * either version's `getOdds` renders parses back to exactly `OddsOf`, so
   * no precision is lost on the way through the one-decimal string.
   */
  lemma ParsedOddsAgree(areas: seq<Area>, id: string)
    requires HasOdds(areas, id)
    ensures Format.ParseTenths(GetOdds(areas, id).value) == Some(OddsOf(areas, id))
    ensures Format.ParseTenths(GetOddsReact(areas, id)) == Some(OddsOf(areas, id))
  {
    match Find(areas, id)
    case Some(a) => Format.TenthsRoundTrip(a.odds.value);
    case None => Format.TenthsRoundTrip(DefaultOddsTenths);
  }

  /** On a priced board every lookup succeeds. */
  lemma PricedHasOdds(areas: seq<Area>, id: string)
    requires Priced(areas)
    ensures HasOdds(areas, id)
  {
  }

  /** In a priced grid with distinct ids, the odds of the area with id `areas[k].id` are that area's. */
  lemma OddsOfCell(areas: seq<Area>, k: nat)
    requires DistinctIds(areas) && Priced(areas) && k < |areas|
    ensures HasOdds(areas, areas[k].id)
    ensures Some(OddsOf(areas, areas[k].id)) == areas[k].odds
  {
  }

  /**
   * With distinct ids, every area's own badge renders exactly when the
   * board is priced: the lookup for `areas[k].id` finds `areas[k]` itself.
   */
  lemma BadgesRenderIffPriced(areas: seq<Area>)
    requires DistinctIds(areas)
    ensures (forall k :: 0 <= k < |areas| ==> GetOdds(areas, areas[k].id).Some?) <==> Priced(areas)
  {
    forall k | 0 <= k < |areas|
      ensures GetOdds(areas, areas[k].id).Some? <==> areas[k].odds.Some?
    {
      var f := Find(areas, areas[k].id);
      assert f.Some?;
      var m :| 0 <= m < |areas| && areas[m] == f.value && f.value.id == areas[k].id
               && forall j :: 0 <= j < m ==> areas[j].id != areas[k].id;
      assert m == k;
    }
  }

  /** `Math.floor(wager * odds)` with odds of `tenths / 10`. */
  function Payout(wager: int, tenths: nat): (w: int)
    ensures w * 10 <= wager * tenths < w * 10 + 10
    ensures wager >= 0 ==> w >= 0
  {
    (wager * tenths) / 10
  }
}

=== FILE: reactgame.dfy ===
/**
 * The round engine of the React version (`src/App.tsx`): the hook state as
 * one record, each handler and the interval's updater as a pure
 * transition. Rendering, the batching of state updates and the cosmetic
 * timers (flash, banner, highlight) are left out.
 */
module ReactGame {
  import opened Optional
  import opened Grid
  import opened Probability
  import opened History
  import Strike
  import Engine

  datatype State = State(
    score: int,
    betAmount: int,
    lockedBet: Option<int>,
    selectedArea: Option<string>,
    roundTime: int,
    currentRound: int,
    isRoundActive: bool,
    history: seq<Entry>,
    areas: seq<Area>)

  /**
   * The initial hook values (score 1000, bet 100, round 1) with the grid of
   * `createInitialAreas` refreshed by the mount effect.
   */
  function Init(samples: seq<Sample>): (s: State)
    requires |samples| == CellCount
    ensures Inv(s)
    ensures s.score == Engine.InitialScore && s.betAmount == Engine.InitialBet
    ensures s.roundTime == Engine.RoundSeconds && s.currentRound == 1 && s.isRoundActive
    ensures s.history == [] && s.selectedArea == None && s.lockedBet == None
  {
    var areas := CreateInitialAreas();
    Engine.RefreshKeepsField(areas, samples);
    State(Engine.InitialScore, Engine.InitialBet, None, None, Engine.RoundSeconds, 1, true, [],
          Refresh(areas, samples))
  }

  /** `handleSelectArea`: ignored while locked; otherwise the one selection becomes `id`. */
  function HandleSelectArea(s: State, id: string): (r: State)
    ensures !s.isRoundActive ==> r == s
    ensures s.isRoundActive ==> r.selectedArea == Some(id) && r.(selectedArea := s.selectedArea) == s
  {
    if !s.isRoundActive then s else s.(selectedArea := Some(id))
  }

  /** `handleBetChange`: ignored while locked or when the amount exceeds the score. */
  function HandleBetChange(s: State, amount: int): (r: State)
    ensures !s.isRoundActive || amount > s.score ==> r == s
    ensures s.isRoundActive && amount <= s.score ==> r.betAmount == amount && r.(betAmount := s.betAmount) == s
  {
    if !s.isRoundActive then s
    else if amount <= s.score then s.(betAmount := amount)
    else s
  }

  /**
   * `handleConfirmBet`; the second component is true when the
   * insufficient-score alert is shown. On success the stake is deducted and
   * snapshotted as the locked bet.
   */
  function HandleConfirmBet(s: State): (r: (State, bool))
    ensures !Truthy(s.selectedArea) || !s.isRoundActive ==> r == (s, false)
    ensures r.1 <==> Truthy(s.selectedArea) && s.isRoundActive && s.score < s.betAmount
    ensures r.1 ==> r.0 == s
    ensures Truthy(s.selectedArea) && s.isRoundActive && s.betAmount <= s.score ==>
              && r.0.score == s.score - s.betAmount && 0 <= r.0.score
              && r.0.lockedBet == Some(s.betAmount)
              && !r.0.isRoundActive
              && r.0.(score := s.score, lockedBet := s.lockedBet, isRoundActive := true) == s
  {
    if !Truthy(s.selectedArea) || !s.isRoundActive then (s, false)
    else if s.score < s.betAmount then (s, true)
    else (s.(score := s.score - s.betAmount, lockedBet := Some(s.betAmount), isRoundActive := false), false)
  }

  /** `handleClear`: ignored while locked; otherwise drops selection and locked bet, keeps the amount. */
  function HandleClear(s: State): (r: State)
    ensures !s.isRoundActive ==> r == s
    ensures s.isRoundActive ==>
              r.selectedArea == None && r.lockedBet == None
              && r.(selectedArea := s.selectedArea, lockedBet := s.lockedBet) == s
  {
    if !s.isRoundActive then s else s.(selectedArea := None, lockedBet := None)
  }

  /** The stake a settlement uses: `lockedBet ?? betAmount`. */
  function Wager(s: State): (stake: int)
    ensures s.lockedBet.Some? ==> stake == s.lockedBet.value
    ensures s.lockedBet.None? ==> stake == s.betAmount
  {
    s.lockedBet.GetOr(s.betAmount)
  }

  /**
   * `handleRoundEnd` once the struck area `hit` is known. A selection is
   * settled on the wager: a win credits floor(wager x odds) and records it,
   * a loss records minus the wager. Then selection and lock are cleared,
   * betting reopens, the clock restarts, the round advances and the field
   * is refreshed. The odds are read through `getOdds`, whose text parses
   * back to `OddsOf` (`ParsedOddsAgree`); every area of the React version
   * carries odds, as its `Area` type demands.
   */
  function RoundEnd(s: State, hit: string, samples: seq<Sample>): (r: State)
    requires Priced(s.areas) && |samples| == |s.areas|
    ensures !Truthy(s.selectedArea) ==> r.score == s.score && r.history == s.history
    ensures && r.selectedArea == None && r.lockedBet == None && r.isRoundActive
            && r.roundTime == Engine.RoundSeconds && r.currentRound == s.currentRound + 1
            && r.betAmount == s.betAmount && r.areas == Refresh(s.areas, samples)
  {
    var settled :=
      if Truthy(s.selectedArea) then
        var sel := s.selectedArea.value;
        var isWin := sel == hit;
        PricedHasOdds(s.areas, sel);
        var odds := OddsOf(s.areas, sel);
        var winAmount := if isWin then Payout(Wager(s), odds) else 0;
        var score := if isWin then s.score + winAmount else s.score;
        s.(score := score, history := AddHistoryReact(s.history, Entry(s.currentRound, isWin, sel, hit,
                                                                       if isWin then winAmount else -Wager(s))))
      else s;
    settled.(selectedArea := None, lockedBet := None, isRoundActive := true,
             roundTime := Engine.RoundSeconds, currentRound := s.currentRound + 1,
             areas := Refresh(s.areas, samples))
  }

  /**
   * Settling a selection on the wager `lockedBet ?? betAmount`: a hit adds
   * floor(wager x odds) and records it, a miss records minus the wager and
   * leaves the score. The new entry goes in front of the older ones.
   */
  lemma RoundEndPays(s: State, hit: string, samples: seq<Sample>)
    requires Truthy(s.selectedArea) && Priced(s.areas) && |samples| == |s.areas|
    ensures HasOdds(s.areas, s.selectedArea.value)
    ensures var sel := s.selectedArea.value;
            var r := RoundEnd(s, hit, samples);
            && r.score == (if sel == hit then s.score + Payout(Wager(s), OddsOf(s.areas, sel)) else s.score)
            && |r.history| == Min(|s.history| + 1, HistoryLimit)
            && r.history[0].round == s.currentRound
            && r.history[0].selectedArea == sel && r.history[0].hitArea == hit
            && r.history[0].isWin == (sel == hit)
            && r.history[0].amount == (if sel == hit then Payout(Wager(s), OddsOf(s.areas, sel)) else -Wager(s))
            && r.history[1..] == s.history[..|r.history| - 1]
  {
    PricedHasOdds(s.areas, s.selectedArea.value);
    var r := RoundEnd(s, hit, samples);
    assert r.history[1..] == s.history[..|r.history| - 1];
  }

  /** The interval's updater: at 1 or below it settles and returns 300, otherwise it counts down. */
  function Tick(s: State, draw: real, samples: seq<Sample>): (r: State)
    requires Engine.ValidField(s.areas) && |samples| == CellCount
    ensures Engine.ValidField(r.areas)
    ensures s.roundTime > 1 ==> r == s.(roundTime := s.roundTime - 1)
    ensures s.roundTime <= 1 ==> r == RoundEnd(s, Strike.DetermineReact(s.areas, draw), samples)
  {
    if s.roundTime <= 1 then
      Engine.RefreshKeepsField(s.areas, samples);
      RoundEnd(s, Strike.DetermineReact(s.areas, draw), samples)
    else s.(roundTime := s.roundTime - 1)
  }

  /** Dispatches one event. */
  function Step(s: State, cmd: Engine.Cmd): (r: State)
    requires Engine.ValidField(s.areas) && Engine.TickFits(cmd)
    ensures Engine.ValidField(r.areas)
    ensures !cmd.ClockTick? ==> r.roundTime == s.roundTime && r.currentRound == s.currentRound
                                && r.history == s.history
  {
    match cmd
    case SelectArea(id) => HandleSelectArea(s, id)
    case SetBet(amount) => HandleBetChange(s, amount)
    case Confirm => HandleConfirmBet(s).0
    case Clear => HandleClear(s)
    case ClockTick(draw, samples) => Tick(s, draw, samples)
  }

  /** Runs a sequence of events; the area table stays the valid sixteen-cell grid throughout. */
  function Run(s: State, cmds: seq<Engine.Cmd>): (r: State)
    requires Engine.ValidField(s.areas) && Engine.AllTicksFit(cmds)
    ensures Engine.ValidField(r.areas)
    decreases |cmds|
  {
    if |cmds| == 0 then s else Run(Step(s, cmds[0]), cmds[1..])
  }

  /** `n` ticks with the same random inputs. */
  function Ticks(s: State, n: nat, draw: real, samples: seq<Sample>): (r: State)
    requires Engine.ValidField(s.areas) && |samples| == CellCount
    ensures Engine.ValidField(r.areas)
    decreases n
  {
    if n == 0 then s else Tick(Ticks(s, n - 1, draw, samples), draw, samples)
  }

  /**
   * The invariant of a game in progress: the JS invariant plus the lock
   * discipline: a bet is locked exactly while betting is closed, and a
   * locked bet always has a selection and a nonnegative stake.
   */
  predicate Inv(s: State) {
    && Engine.ValidField(s.areas)
    && s.score >= 0 && s.betAmount >= 0
    && 1 <= s.roundTime <= Engine.RoundSeconds
    && s.currentRound >= 1
    && WellOrdered(s.history, s.currentRound)
    && (s.isRoundActive <==> s.lockedBet.None?)
    && (!s.isRoundActive ==> Truthy(s.selectedArea) && s.lockedBet.value >= 0)
  }

  /** Every event with a nonnegative wager keeps the invariant. */
  lemma StepKeepsInv(s: State, cmd: Engine.Cmd)
    requires Inv(s) && Engine.TickFits(cmd)
    requires cmd.SetBet? ==> cmd.amount >= 0
    ensures Inv(Step(s, cmd))
  {
    match cmd
    case ClockTick(draw, samples) => TickKeepsInv(s, draw, samples);
    case SelectArea(id) =>
    case SetBet(amount) =>
    case Confirm =>
    case Clear =>
  }

  /** A tick keeps the invariant, whether it only counts down or settles the round. */
  lemma TickKeepsInv(s: State, draw: real, samples: seq<Sample>)
    requires Inv(s) && |samples| == CellCount
    ensures Inv(Tick(s, draw, samples))
  {
    if s.roundTime <= 1 {
      RoundEndKeepsInv(s, Strike.DetermineReact(s.areas, draw), samples);
    }
  }

  /** Settling against any struck area and opening the next round keeps the invariant. */
  lemma RoundEndKeepsInv(s: State, hit: string, samples: seq<Sample>)
    requires Inv(s) && |samples| == CellCount
    ensures Inv(RoundEnd(s, hit, samples))
  {
    Engine.RefreshKeepsField(s.areas, samples);
    if Truthy(s.selectedArea) {
      RoundEndPays(s, hit, samples);
      RecordThenAdvance(s.history, RoundEnd(s, hit, samples).history[0]);
    } else {
      Advance(s.history, s.currentRound);
    }
    assert Wager(s) >= 0;
  }

  /** The invariant holds after any run of events whose wagers are nonnegative. */
  lemma {:induction false} RunKeepsInv(s: State, cmds: seq<Engine.Cmd>)
    requires Inv(s) && Engine.AllTicksFit(cmds) && Engine.NonNegativeBets(cmds)
    ensures Inv(Run(s, cmds))
    decreases |cmds|
  {
    if |cmds| > 0 {
      StepKeepsInv(s, cmds[0]);
      RunKeepsInv(Step(s, cmds[0]), cmds[1..]);
    }
  }

  /** While a bet is locked, selecting, changing the amount, confirming and clearing change nothing. */
  lemma LockedBetIsFrozen(s: State, id: string, amount: int)
    requires Inv(s) && !s.isRoundActive
    ensures HandleSelectArea(s, id) == s && HandleBetChange(s, amount) == s
    ensures HandleConfirmBet(s) == (s, false) && HandleClear(s) == s
  {
  }

  /**
   * A confirmed round pays on the stake deducted at confirmation: settling
   * a locked state credits floor(stake x odds) on a hit and records minus
   * the stake on a miss, whatever the current `betAmount` is.
   */
  lemma SettlementUsesLockedStake(s: State, hit: string, samples: seq<Sample>)
    requires Inv(s) && !s.isRoundActive && |samples| == |s.areas|
    ensures HasOdds(s.areas, s.selectedArea.value)
    ensures var sel := s.selectedArea.value;
            var stake := s.lockedBet.value;
            var r := RoundEnd(s, hit, samples);
            && r.score == s.score + (if sel == hit then Payout(stake, OddsOf(s.areas, sel)) else 0)
            && r.history[0].amount == (if sel == hit then Payout(stake, OddsOf(s.areas, sel)) else -stake)
  {
    RoundEndPays(s, hit, samples);
  }

  /** From `roundTime = T`, the first T - 1 ticks only count down. */
  lemma {:induction false} Countdown(s: State, n: nat, draw: real, samples: seq<Sample>)
    requires Engine.ValidField(s.areas) && |samples| == CellCount
    requires n < s.roundTime
    ensures Ticks(s, n, draw, samples) == s.(roundTime := s.roundTime - n)
    decreases n
  {
    if n > 0 {
      Countdown(s, n - 1, draw, samples);
    }
  }

  /** The T-th tick settles: the round advances and the clock restarts at 300. */
  lemma SettlesOnLastTick(s: State, draw: real, samples: seq<Sample>)
    requires Engine.ValidField(s.areas) && |samples| == CellCount
    requires s.roundTime >= 1
    ensures var r := Ticks(s, s.roundTime as nat, draw, samples);
            r.currentRound == s.currentRound + 1 && r.roundTime == Engine.RoundSeconds && r.isRoundActive
  {
    var n := s.roundTime as nat;
    var before := Ticks(s, n - 1, draw, samples);
    Countdown(s, n - 1, draw, samples);
    TicksLast(s, n, draw, samples);
    LastTickSettles(before, draw, samples);
  }

  /** The last of n ticks is applied to the state after the first n - 1. */
  lemma TicksLast(s: State, n: nat, draw: real, samples: seq<Sample>)
    requires Engine.ValidField(s.areas) && |samples| == CellCount && n >= 1
    ensures Ticks(s, n, draw, samples) == Tick(Ticks(s, n - 1, draw, samples), draw, samples)
  {
  }

  /** A tick with one second left settles the round and opens the next. */
  lemma LastTickSettles(s: State, draw: real, samples: seq<Sample>)
    requires Engine.ValidField(s.areas) && |samples| == CellCount && s.roundTime == 1
    ensures var r := Tick(s, draw, samples);
            r.currentRound == s.currentRound + 1 && r.roundTime == Engine.RoundSeconds && r.isRoundActive
  {
  }
}

=== FILE: strike.dfy ===
/**
 * The weighted strike draw (`determineLightningStrike`, both versions):
 * probabilities are normalised by their total, summed cumulatively in grid
 * order, and the first area whose cumulative bound reaches the draw `r` is
 * struck. The draw is a parameter; arithmetic is over exact reals.
 */
module Strike {
  import opened Optional
  import opened Grid
  import opened Probability

  /** Sum of the first k weights. */
  function Prefix(ps: seq<real>, k: nat): (total: real)
    requires k <= |ps|
  {
    Sum(ps[..k])
  }

  lemma PrefixStep(ps: seq<real>, k: nat)
    requires k < |ps|
    ensures Prefix(ps, k + 1) == Prefix(ps, k) + ps[k]
  {
    assert ps[..k + 1][..k] == ps[..k];
  }

  lemma {:induction false} PrefixMonotone(ps: seq<real>, a: nat, b: nat)
    requires NonNegative(ps) && a <= b <= |ps|
    ensures Prefix(ps, a) <= Prefix(ps, b)
    decreases b - a
  {
    if a < b {
      PrefixStep(ps, a);
      PrefixMonotone(ps, a + 1, b);
    }
  }

  lemma SumIsPrefix(ps: seq<real>)
    ensures Prefix(ps, |ps|) == Sum(ps)
  {
    assert ps[..|ps|] == ps;
  }

  /**
   * The loop from index i on, `cumulative` being what earlier iterations
   * accumulated; None when the loop runs out.
   */
  function Walk(ps: seq<real>, total: real, r: real, i: nat, cumulative: real): (res: Option<nat>)
    requires total != 0.0 && i <= |ps|
    ensures res.Some? ==> i <= res.value < |ps|
    decreases |ps| - i
  {
    if i == |ps| then None
    else
      var c := cumulative + ps[i] / total;
      if r <= c then Some(i) else Walk(ps, total, r, i + 1, c)
  }

  /** The normalised cumulative bound of area k reaches the draw. */
  predicate Reaches(ps: seq<real>, total: real, r: real, k: nat)
    requires total != 0.0 && k < |ps|
  {
    r <= Prefix(ps, k + 1) / total
  }

  /** The walk returns the first index whose cumulative bound reaches r, or None if none does. */
  lemma {:induction false} WalkFirstReach(ps: seq<real>, total: real, r: real, i: nat, cumulative: real)
    requires total != 0.0 && i <= |ps|
    requires cumulative == Prefix(ps, i) / total
    ensures var res := Walk(ps, total, r, i, cumulative);
            res.Some? ==> Reaches(ps, total, r, res.value)
                          && forall m :: i <= m < res.value ==> !Reaches(ps, total, r, m)
    ensures Walk(ps, total, r, i, cumulative).None? ==>
              forall m :: i <= m < |ps| ==> !Reaches(ps, total, r, m)
    decreases |ps| - i
  {
    if i < |ps| {
      PrefixStep(ps, i);
      var c := cumulative + ps[i] / total;
      assert c == Prefix(ps, i + 1) / total;
      if r > c {
        WalkFirstReach(ps, total, r, i + 1, c);
      }
    }
  }

  /**
   * Index of the struck area, None when the loop falls through. A zero
   * total makes every bound NaN in the source, so no comparison succeeds.
   */
  function StrikeIndex(ps: seq<real>, r: real): (res: Option<nat>)
    requires NonNegative(ps)
    ensures res.Some? ==> res.value < |ps|
    ensures Sum(ps) == 0.0 ==> res.None?
    ensures res.Some? ==> Sum(ps) != 0.0 && Reaches(ps, Sum(ps), r, res.value)
    ensures res.None? && Sum(ps) != 0.0 ==> forall m :: 0 <= m < |ps| ==> !Reaches(ps, Sum(ps), r, m)
  {
    var total := Sum(ps);
    if total == 0.0 then None
    else
      assert ps[..0] == [];
      WalkFirstReach(ps, total, r, 0, 0.0);
      Walk(ps, total, r, 0, 0.0)
  }

  /** The struck index is the first whose cumulative bound `Prefix(j + 1) / total` reaches r. */
  lemma StrikeIndexFirstReach(ps: seq<real>, r: real, j: nat)
    requires NonNegative(ps)
    ensures StrikeIndex(ps, r) == Some(j) <==>
              && Sum(ps) != 0.0 && j < |ps|
              && Reaches(ps, Sum(ps), r, j)
              && forall m :: 0 <= m < j ==> !Reaches(ps, Sum(ps), r, m)
  {
    var total := Sum(ps);
    if total != 0.0 {
      assert ps[..0] == [];
      WalkFirstReach(ps, total, r, 0, 0.0);
    }
  }

  lemma DivideByPositive(a: real, b: real, t: real)
    requires a <= b && t > 0.0
    ensures a / t <= b / t
  {
  }

  /** With nonnegative weights, missing every bound before j means exceeding `Prefix(j) / total`. */
  lemma MissedAllBefore(ps: seq<real>, r: real, j: nat)
    requires NonNegative(ps) && Sum(ps) > 0.0 && 0 < j <= |ps|
    ensures (forall m :: 0 <= m < j ==> !Reaches(ps, Sum(ps), r, m)) <==> Prefix(ps, j) / Sum(ps) < r
  {
    var total := Sum(ps);
    if Prefix(ps, j) / total < r {
      forall m | 0 <= m < j
        ensures !Reaches(ps, total, r, m)
      {
        PrefixMonotone(ps, m + 1, j);
        DivideByPositive(Prefix(ps, m + 1), Prefix(ps, j), total);
      }
    } else {
      assert Reaches(ps, total, r, j - 1);
    }
  }

  /**
   * Fairness: with a positive total, area j is struck exactly when r lies in
   * (Prefix(j) / total, Prefix(j + 1) / total], an interval of width
   * `ps[j] / total` (for j = 0 the interval is open below).
   */
  lemma StrikeInterval(ps: seq<real>, r: real, j: nat)
    requires NonNegative(ps) && Sum(ps) > 0.0 && j < |ps|
    ensures StrikeIndex(ps, r) == Some(j) <==>
              (j == 0 || Prefix(ps, j) / Sum(ps) < r) && r <= Prefix(ps, j + 1) / Sum(ps)
    ensures Prefix(ps, j + 1) / Sum(ps) - Prefix(ps, j) / Sum(ps) == ps[j] / Sum(ps)
  {
    var total := Sum(ps);
    StrikeIndexFirstReach(ps, r, j);
    var reached := Reaches(ps, total, r, j);
    assert reached <==> r <= Prefix(ps, j + 1) / total;
    if j > 0 {
      MissedAllBefore(ps, r, j);
    }
    IntervalWidth(ps, j);
  }

  lemma IntervalWidth(ps: seq<real>, j: nat)
    requires Sum(ps) > 0.0 && j < |ps|
    ensures Prefix(ps, j + 1) / Sum(ps) - Prefix(ps, j) / Sum(ps) == ps[j] / Sum(ps)
  {
    PrefixStep(ps, j);
    DivideSum(Prefix(ps, j), ps[j], Sum(ps));
  }

  lemma DivideSum(a: real, b: real, t: real)
    requires t != 0.0
    ensures (a + b) / t == a / t + b / t
  {
    var x, y := a / t, b / t;
    assert x * t == a && y * t == b;
    assert (x + y) * t == a + b;
  }

  lemma DivideSelf(t: real)
    requires t > 0.0
    ensures t / t == 1.0
  {
  }

  /** With a positive total and a draw of at most 1, the fallback is never taken. */
  lemma NoFallback(ps: seq<real>, r: real)
    requires NonNegative(ps) && Sum(ps) > 0.0 && r <= 1.0
    ensures StrikeIndex(ps, r).Some?
  {
    var n, total := |ps|, Sum(ps);
    assert n > 0;
    SumIsPrefix(ps);
    assert Prefix(ps, (n - 1) + 1) == total;
    DivideSelf(total);
    assert Reaches(ps, total, r, n - 1);
    assert ps[..0] == [];
    WalkFirstReach(ps, total, r, 0, 0.0);
  }

  /** The area chosen by the DOM version; its fallback is `areas[0].id`. */
  function DetermineJs(areas: seq<Area>, r: real): (id: string)
    requires |areas| > 0 && NonNegative(Weights(areas))
    ensures exists k :: 0 <= k < |areas| && areas[k].id == id
    ensures StrikeIndex(Weights(areas), r).None? ==> id == areas[0].id
    ensures Sum(Weights(areas)) != 0.0 && r <= areas[0].probability / Sum(Weights(areas)) ==>
              id == areas[0].id
  {
    match StrikeIndex(Weights(areas), r)
    case Some(k) => areas[k].id
    case None => areas[0].id
  }

  /**
   * The id-level pick: when area j's cumulative bound is the first to reach
   * r, the DOM draw strikes area j's id.
   */
  lemma DetermineJsFirstReach(areas: seq<Area>, r: real, j: nat)
    requires |areas| > 0 && NonNegative(Weights(areas)) && j < |areas|
    requires Sum(Weights(areas)) != 0.0 && Reaches(Weights(areas), Sum(Weights(areas)), r, j)
    requires forall m :: 0 <= m < j ==> !Reaches(Weights(areas), Sum(Weights(areas)), r, m)
    ensures DetermineJs(areas, r) == areas[j].id
  {
    StrikeIndexFirstReach(Weights(areas), r, j);
  }

  /**
   * The area chosen by the React version: the same walk, falling back to
   * `areas[0]?.id ?? "A1"`, so an empty list yields "A1".
   */
  function DetermineReact(areas: seq<Area>, r: real): (id: string)
    requires NonNegative(Weights(areas))
    ensures |areas| == 0 ==> id == "A1"
    ensures |areas| > 0 ==> id == DetermineJs(areas, r)
  {
    match StrikeIndex(Weights(areas), r)
    case Some(k) => areas[k].id
    case None => if |areas| > 0 then areas[0].id else "A1"
  }
}

=== FILE: versions.dfy ===
/**
 * How the two engines relate: where they agree (tick cadence, settlement
 * arithmetic) and where they differ (the stake paid on a win after the bet
 * amount is changed while a bet is locked, clearing a locked bet).
 */
module Versions {
  import opened Optional
  import opened Grid
  import opened Probability
  import opened History
  import Engine
  import JsGame
  import ReactGame
  import Format

  /** Both engines count down T - 1 ticks and settle on the T-th, from the same clock value. */
  lemma SameCadence(js: JsGame.State, rs: ReactGame.State, n: nat, draw: real, samples: seq<Sample>)
    requires Engine.ValidField(js.areas) && Engine.ValidField(rs.areas) && |samples| == CellCount
    requires js.roundTime == rs.roundTime >= 1
    ensures n < js.roundTime ==>
              JsGame.Ticks(js, n, draw, samples).roundTime == ReactGame.Ticks(rs, n, draw, samples).roundTime
                == js.roundTime - n
    ensures JsGame.Ticks(js, js.roundTime as nat, draw, samples).currentRound == js.currentRound + 1
    ensures ReactGame.Ticks(rs, rs.roundTime as nat, draw, samples).currentRound == rs.currentRound + 1
  {
    if n < js.roundTime {
      JsGame.Countdown(js, n, draw, samples);
      ReactGame.Countdown(rs, n, draw, samples);
    }
    JsGame.SettlesOnLastTick(js, draw, samples);
    ReactGame.SettlesOnLastTick(rs, draw, samples);
  }

  /**
   * Confirm a stake b on an area, then change the amount to a, then the
   * area is struck. The DOM engine accepts the change and pays floor(a x
   * odds); the React engine ignores it and pays floor(b x odds).
   */
  lemma StakeAfterBetChange(js: JsGame.State, rs: ReactGame.State, a: int, samples: seq<Sample>)
    requires JsGame.Inv(js) && ReactGame.Inv(rs)
    requires js.isRoundActive && rs.isRoundActive
    requires js.score == rs.score && js.betAmount == rs.betAmount && js.areas == rs.areas
    requires js.selectedArea == rs.selectedArea && Truthy(js.selectedArea)
    requires js.betAmount <= js.score && a <= js.score - js.betAmount
    requires |samples| == CellCount
    ensures var sel := js.selectedArea.value;
            var t := OddsOf(js.areas, sel);
            var jsDone := JsGame.EndRound(JsGame.SetBetAmount(JsGame.ConfirmBet(js).0, a), sel);
            var rsDone := ReactGame.RoundEnd(ReactGame.HandleBetChange(ReactGame.HandleConfirmBet(rs).0, a), sel, samples);
            && jsDone.score == js.score - js.betAmount + Payout(a, t)
            && rsDone.score == rs.score - rs.betAmount + Payout(rs.betAmount, t)
  {
  }

  /**
   * Both engines settle a selection that was never confirmed: nothing was
   * deducted, yet a hit credits floor(bet x odds) and a miss records a loss
   * of the bet without taking it.
   */
  lemma UnconfirmedSelectionIsSettled(js: JsGame.State, rs: ReactGame.State, hit: string, samples: seq<Sample>)
    requires JsGame.Inv(js) && ReactGame.Inv(rs) && js.isRoundActive && rs.isRoundActive
    requires Truthy(js.selectedArea) && Truthy(rs.selectedArea)
    requires |samples| == CellCount
    ensures var sel := js.selectedArea.value;
            var r := JsGame.EndRound(js, hit);
            && r.score == js.score + (if sel == hit then Payout(js.betAmount, OddsOf(js.areas, sel)) else 0)
            && r.history[0].amount == (if sel == hit then Payout(js.betAmount, OddsOf(js.areas, sel)) else -js.betAmount)
    ensures var sel := rs.selectedArea.value;
            var r := ReactGame.RoundEnd(rs, hit, samples);
            && r.score == rs.score + (if sel == hit then Payout(rs.betAmount, OddsOf(rs.areas, sel)) else 0)
            && r.history[0].amount == (if sel == hit then Payout(rs.betAmount, OddsOf(rs.areas, sel)) else -rs.betAmount)
  {
  }

  /**
   * Clearing after confirming: the DOM engine drops the selection, so the
   * settlement pays nothing and records nothing although the stake was
   * deducted; the React engine ignores the clear and settles the bet.
   */
  lemma ClearAfterConfirm(js: JsGame.State, rs: ReactGame.State, hit: string)
    requires JsGame.Inv(js) && ReactGame.Inv(rs) && !js.isRoundActive && !rs.isRoundActive
    ensures var r := JsGame.EndRound(JsGame.ClearSelection(js), hit);
            r.score == js.score && r.history == js.history
    ensures ReactGame.HandleClear(rs) == rs && Truthy(rs.selectedArea)
  {
  }

  /** Odds shown as "9.0" are 90 tenths. */
  lemma NineParses(areas: seq<Area>)
    requires GetOdds(areas, "B2") == Some("9.0")
    ensures HasOdds(areas, "B2") && OddsOf(areas, "B2") == 90
  {
    ParsedOddsAgree(areas, "B2");
    assert Format.ParseTenths("9.0") == Some(90) by {
      assert "9.0"[..1] == "9";
      assert "9"[..0] == "";
    }
  }

  /**
   * The worked example: score 1000, a bet of 100 on B2 at odds 9.0. A strike
   * on B2 leaves 1000 - 100 + 900 = 1800 and records +900 (the gross win);
   * a strike on A1 leaves 900 and records -100.
   */
  lemma WorkedExample(rs: ReactGame.State, samples: seq<Sample>)
    requires ReactGame.Inv(rs) && rs.isRoundActive
    requires rs.score == 1000 && rs.betAmount == 100 && GetOddsReact(rs.areas, "B2") == "9.0"
    requires |samples| == CellCount
    ensures var locked := ReactGame.HandleConfirmBet(ReactGame.HandleSelectArea(rs, "B2")).0;
            var win := ReactGame.RoundEnd(locked, "B2", samples);
            var loss := ReactGame.RoundEnd(locked, "A1", samples);
            && win.score == 1800 && win.history[0] == Entry(rs.currentRound, true, "B2", "B2", 900)
            && loss.score == 900 && loss.history[0] == Entry(rs.currentRound, false, "B2", "A1", -100)
  {
    PricedHasOdds(rs.areas, "B2");
    NineParses(rs.areas);
  }

  /** The same example on the DOM engine gives the same score and history. */
  lemma WorkedExampleJs(js: JsGame.State)
    requires JsGame.Inv(js) && js.isRoundActive
    requires js.score == 1000 && js.betAmount == 100 && GetOdds(js.areas, "B2") == Some("9.0")
    ensures var locked := JsGame.ConfirmBet(JsGame.SelectArea(js, "B2")).0;
            var win := JsGame.EndRound(locked, "B2");
            var loss := JsGame.EndRound(locked, "A1");
            && win.score == 1800 && win.history[0] == Entry(js.currentRound, true, "B2", "B2", 900)
            && loss.score == 900 && loss.history[0] == Entry(js.currentRound, false, "B2", "A1", -100)
  {
    NineParses(js.areas);
  }
}
